=== FILE: README.md ===
# AP_Gimbal: sequence check, RC angle mapping and tilt slew limiter in Dafny

This project models the sequential logic of ArduPilot's `AP_Gimbal` closed-loop
gimbal controller (`libraries/AP_Gimbal/AP_Gimbal.cpp`). It proves properties of
that logic. The code runs once per gimbal feedback message. The modelled parts are:

- **Feedback sequence-id check** (`decode_feedback`). The expected id is the
  previous id plus one, computed in `uint8_t`, so 255 is followed by 0. A
  mismatch increments the `uint16_t` counter `feedback_error_count`, which wraps
  at 65536. The received id is stored either way. The payload is then copied
  and the joint angles are corrected by the joint offsets.
- **RC input to angle** (`angle_input`). This is `int32_t` arithmetic that maps
  `[radio_min, radio_max]` linearly onto `[angle_min, angle_max]` in
  centi-degrees. It can be reversed. Its division truncates toward zero.
- **Tilt-target slew limiter** (`update_targets_from_rc`). Each cycle the tilt
  target either snaps to the requested tilt or moves exactly
  `delta_time * _max_tilt_rate` toward it.
- **Cycle driver** (`receive_feedback`, `send_control`). Each cycle updates the
  target, decodes the feedback and takes the new rate demand. It sends a
  control message only when the estimator reports ready. The message echoes the
  stored measurement id and is addressed to the configured system and component.

Modules:

- `BoundedInts` (`bounded_ints.dfy`) has the fixed-width integer types, the
  wrapping increments and C++ truncating division (`TruncDiv`), with lemmas
  about it. `TruncDiv` divides with `Quot` (repeated subtraction), and the
  `AngleInput` contracts multiply two variables only through `Mul` (repeated
  addition). `MulIsProduct` and `QuotIsDiv` prove them equal to Dafny's `*`
  and `/`, so in those contracts the solver meets nonlinear arithmetic only in
  the proofs that ask for it.
- `SequenceCheck` (`sequence_check.dfy`) has the id check and its behaviour
  over a stream of ids. A gap count (`GapCount`) serves as the reference
  definition.
- `AngleInput` (`angle_input.dfy`) has `angle_input`. C++ undefined behaviour
  (division by zero, signed overflow) comes back as `Undefined`, not as an
  invented value.
- `TiltSlew` (`tilt_slew.dfy`) has the limiter over `real`. `Clamp` is a
  reference rule without division, and the iterated limiter converges.
- `GimbalCycle` (`gimbal_cycle.dfy`) has the controller state, one cycle as a
  pure step function, and runs over many cycles.

From 0 rad toward a held 1 rad request at 0.2 rad/s with a 0.1 s cycle, the
target ramps by 0.02 rad for 49 cycles and equals the request from cycle 50
(`TiltSlew.RampExample`, `TiltSlew.ReachExample`).

## Model

| member | source | states |
|---|---|---|
| BoundedInts.Inc8 | libraries/AP_Gimbal/AP_Gimbal.cpp:34 | The `uint8_t` expected id is the previous id plus one, and 255 wraps to 0 |
| BoundedInts.Inc16 | libraries/AP_Gimbal/AP_Gimbal.cpp:39 | `feedback_error_count++` on a `uint16_t` adds one, 65535 wraps to 0, and the value always changes |
| BoundedInts.TruncDivRemainder | libraries/AP_Gimbal/AP_Gimbal.cpp:204 | The C++ division in `angle_input` truncates toward zero: the remainder is zero or has the dividend's sign, and is smaller than the divisor in magnitude |
| BoundedInts.TruncDivUnique | libraries/AP_Gimbal/AP_Gimbal.cpp:204 | Those remainder bounds determine the truncated quotient uniquely |
| BoundedInts.TruncDivIsFloor | libraries/AP_Gimbal/AP_Gimbal.cpp:204 | For a non-negative dividend and a positive divisor, the C++ quotient is the floor quotient |
| BoundedInts.TruncDivNegate | libraries/AP_Gimbal/AP_Gimbal.cpp:204 | Truncating division is odd in the dividend, so negating the product for a reversed channel negates the quotient |
| SequenceCheck.ExpectedIdIsSuccessor | libraries/AP_Gimbal/AP_Gimbal.cpp:34-38 | The received id equals the expected id exactly when it is one more than the previous id modulo 256 |
| SequenceCheck.Check | libraries/AP_Gimbal/AP_Gimbal.cpp:31-41 | The received id is stored whether or not it was expected. The counter is unchanged iff the id follows the previous one; otherwise it rises by exactly one modulo 2^16 |
| SequenceCheck.CheckAllCountsGaps | libraries/AP_Gimbal/AP_Gimbal.cpp:31-41 | After a stream of ids, the stored id is the last one received and the counter has grown by the number of gaps modulo 2^16 |
| SequenceCheck.CountNeverResets | libraries/AP_Gimbal/AP_Gimbal.cpp:39 | Below its wrap-around the counter is never reset: it equals its start plus the number of gaps |
| SequenceCheck.WrapIsNotAGap | libraries/AP_Gimbal/AP_Gimbal.cpp:34-38 | Id 255 followed by id 0 leaves the counter unchanged |
| SequenceCheck.OneGapInOneTwoThreeFive | libraries/AP_Gimbal/AP_Gimbal.cpp:34-41 | Ids 1, 2, 3, 5 after id 0 raise the counter exactly once and leave id 5 stored |
| AngleInput.Angle | libraries/AP_Gimbal/AP_Gimbal.cpp:202-205 | With `radio_max == radio_min` (division by zero), or with a product that overflows `int32_t`, `angle_input` has no defined value |
| AngleInput.Endpoints | libraries/AP_Gimbal/AP_Gimbal.cpp:204 | With `radio_max != radio_min`, `radio_min` always maps to `angle_min` (`angle_max` when reversed). When the span product fits in `int32_t`, `radio_max` maps to `angle_max` (`angle_min` when reversed) |
| AngleInput.WithinRange | libraries/AP_Gimbal/AP_Gimbal.cpp:204 | For a pulse between `radio_min` and `radio_max`, in either order of the two, the result is defined exactly when that pulse's product fits in `int32_t`, and a defined result lies between `angle_min` and `angle_max`, in either order |
| AngleInput.Monotone | libraries/AP_Gimbal/AP_Gimbal.cpp:204 | For two pulses in range, where the wider pulse's product fits in `int32_t`, both angles are defined. The angle never decreases as the pulse width grows, and never increases when the channel is reversed |
| AngleInput.ReverseMirrors | libraries/AP_Gimbal/AP_Gimbal.cpp:204 | The reversed and non-reversed angles for the same pulse sum to `angle_min + angle_max` |
| TiltSlew.RateExceeds | libraries/AP_Gimbal/AP_Gimbal.cpp:217-220 | The test `(tilt - target) / delta_time > _max_tilt_rate` is the same as the distance exceeding `delta_time * _max_tilt_rate`, and likewise for the negative side |
| TiltSlew.Step | libraries/AP_Gimbal/AP_Gimbal.cpp:214-225 | Within one step of the request the target lands on it exactly. Otherwise it moves exactly one step toward the request without overshooting, and never further than `delta_time * _max_tilt_rate`. It agrees with the division-free reference rule |
| TiltSlew.IterateIsWalk | libraries/AP_Gimbal/AP_Gimbal.cpp:217-224 | With the request held, `n` cycles of the source's rule equal `n` steps of the reference rule |
| TiltSlew.FixpointIsStable | libraries/AP_Gimbal/AP_Gimbal.cpp:217-224 | A target that equals the held request stays unchanged for any number of cycles |
| TiltSlew.ReachedIff | libraries/AP_Gimbal/AP_Gimbal.cpp:217-224 | The target equals a held request after `n` cycles iff `n` steps cover the initial distance |
| TiltSlew.WalkRamp | libraries/AP_Gimbal/AP_Gimbal.cpp:217-219 | While a request above the target lies further than the steps taken cover, the target ramps up linearly by one step per cycle |
| TiltSlew.WalkRampDown | libraries/AP_Gimbal/AP_Gimbal.cpp:220-221 | While a request below the target lies further than the steps taken cover, the target ramps down linearly by one step per cycle |
| TiltSlew.ConvergesInCycles | libraries/AP_Gimbal/AP_Gimbal.cpp:217-224 | A held request is reached after ⌈abs(tilt - target) / (delta_time * _max_tilt_rate)⌉ cycles, and not before |
| TiltSlew.RampExample | libraries/AP_Gimbal/AP_Gimbal.cpp:217-219 | From 0 toward 1 rad at 0.2 rad/s with a 0.1 s cycle, the target is `0.02 * n` after `n <= 50` cycles |
| TiltSlew.ReachExample | libraries/AP_Gimbal/AP_Gimbal.cpp:217-224 | In that scenario the target equals the request exactly from cycle 50 on |
| GimbalCycle.UpdateTargets | libraries/AP_Gimbal/AP_Gimbal.cpp:214-225 | The tilt target moves by at most one step and lands on a request within reach. Nothing else in the state changes |
| GimbalCycle.DecodeFeedback | libraries/AP_Gimbal/AP_Gimbal.cpp:31-55 | The received id is stored and the counter changes iff there is a gap. Rates are copied, joint angles plus the offsets give back the received joints, and the target and rate demand are untouched |
| GimbalCycle.SendControl | libraries/AP_Gimbal/AP_Gimbal.cpp:185-199 | The command is encoded as system 1, component 1, addressed to the configured system and component, and carries the stored measurement id and the current rate demand |
| GimbalCycle.ReceiveFeedback | libraries/AP_Gimbal/AP_Gimbal.cpp:20-28 | A cycle sends a command iff the estimator is ready. The command echoes the feedback id, is addressed to the configured system and component, and carries this cycle's rate demand |
| GimbalCycle.RunChecksIds | libraries/AP_Gimbal/AP_Gimbal.cpp:20-41 | Over many cycles, the stored id and counter are exactly the result of checking the received id stream alone |
| GimbalCycle.RunCountsGaps | libraries/AP_Gimbal/AP_Gimbal.cpp:31-41 | Over many cycles, the counter grows by the number of id gaps modulo 2^16, and the last received id is stored |
| GimbalCycle.RunSendsWhenReady | libraries/AP_Gimbal/AP_Gimbal.cpp:185-199 | A run sends one packet per ready cycle, in order. Each packet comes from system 1, component 1, is addressed to the configured target, and echoes that cycle's id and rate demand |

## Left out

- The rate-demand composition (`update_state`, `getGimbalRateDemVecYaw`, `getGimbalRateDemVecTilt`, `getGimbalRateDemVecForward`, `quaternion_to_vector`, `vetor312_to_rotation_matrix`) is float trigonometry and quaternion algebra. Its per-cycle result is an input (`demand`).
- The yaw-rate low-pass filter and the excess-rate correction are float numerics that depend on the vehicle attitude provider, so they are not modelled.
- The attitude estimator (`_ekf.RunEKF`, `getQuat`, `getGyroBias`, `getStatus`) and `_ahrs` are code outside this model. Only the estimator's readiness enters, as the input `ready`.
- MAVLink message decoding and encoding and `GCS_MAVLINK::routing.forward` are wire format and transport. Messages are records of their fields.
- The `printf` diagnostic on a sequence gap and the `AP_Param` `var_info` table have no effect on the modelled state.
- `angle_input_rad` converts centi-degrees to radians in float. The slew limiter takes the requested tilt in radians as a parameter.
- Float rounding: the slew limiter and the joint-offset subtraction are idealised over `real`.
- `K_gimbalRate` is used only by the yaw and tilt rate-demand terms (`AP_Gimbal.cpp:126`, `:133`, `:164`), which are outside the model. `angRateLimit` is declared at `AP_Gimbal.cpp:18` and never used.
- `feedback_error_count` is a process-wide global in the source. Here it is a field of the one controller state, which matches a single gimbal instance.
- `AP_Gimbal.h` and `RC_Channel.h` are not part of this model. The stored measurement id is taken as `uint8_t`, like the feedback id it is assigned from. `radio_in`, `radio_min` and `radio_max` are taken as `int16_t`.
- AngleInput.Endpoints: the `radio_max` endpoint is proved only when `(radio_max - radio_min) * (angle_max - angle_min)` fits in `int32_t`, because beyond that the C++ expression overflows and has no defined value. The `radio_min` endpoint needs only `radio_max != radio_min`.
- AngleInput.Monotone: stated for `radio_min < radio_max` and `angle_min <= angle_max`. Swapping one of the two ranges reverses the direction in which the angle moves (a swapped pulse range still maps `radio_min` to `angle_min` and keeps the result between the angle ends, as WithinRange states), so the model states the direction only for ordered ranges.
- TiltSlew.Step: the step-size properties are stated for `_max_tilt_rate >= 0`. With a negative limit the source's branches move the target away from a request it already equals, and no bound is claimed.

=== FILE: angle_input.dfy ===
/**
 The free function `angle_input`: the angle, in centi-degrees, that an RC
 channel's pulse width commands, mapped linearly from the channel's
 `[radio_min, radio_max]` onto `[angle_min, angle_max]`, optionally reversed.

 The source computes, in 32-bit `int` and from left to right, the product
 sign * (in - min) * (angle span), where the sign is -1 for a reversed channel.
 It divides that by the pulse span with C++ division, which truncates toward
 zero, and then adds the base end of the angle range.
 Signed overflow and division by zero are undefined behaviour in C++; the model
 reports them as `Undefined` instead of inventing a value.
 */
module AngleInput {
  import opened BoundedInts

  /** The fields of `RC_Channel` that `angle_input` reads. */
  datatype RcChannel = RcChannel(radioIn: int16, radioMin: int16, radioMax: int16, reversed: bool)

  datatype UndefinedBehaviour = DivisionByZero | SignedOverflow

  datatype Centidegrees = Defined(value: int32) | Undefined(why: UndefinedBehaviour)

  /** `(radio_in - radio_min) * (angle_max - angle_min)`, the unsigned part of the product. */
  function Offset(rc: RcChannel, angleMin: int16, angleMax: int16): int {
    Mul(rc.radioIn - rc.radioMin, angleMax - angleMin)
  }

  /**
   The dividend: the pulse's distance above `radio_min`, negated for a reversed
   channel, times the width of the angle range. The source forms the signed
   pulse distance first; that always fits in `int32_t`, so only the full
   product can overflow.
   */
  function ScaledOffset(rc: RcChannel, angleMin: int16, angleMax: int16): (r: int)
    ensures r == if rc.reversed then -Offset(rc, angleMin, angleMax) else Offset(rc, angleMin, angleMax)
  {
    var sign := if rc.reversed then -1 else 1;
    MulIsProduct(sign * (rc.radioIn - rc.radioMin), angleMax - angleMin);
    MulIsProduct(rc.radioIn - rc.radioMin, angleMax - angleMin);
    Mul(sign * (rc.radioIn - rc.radioMin), angleMax - angleMin)
  }

  /** The angle the result is measured from: `angle_max` when reversed, else `angle_min`. */
  function Base(rc: RcChannel, angleMin: int16, angleMax: int16): int16 {
    if rc.reversed then angleMax else angleMin
  }

  function Angle(rc: RcChannel, angleMin: int16, angleMax: int16): (r: Centidegrees)
    ensures rc.radioMax == rc.radioMin ==> r.Undefined?
    ensures !InInt32(ScaledOffset(rc, angleMin, angleMax)) ==> r.Undefined?
  {
    var product := ScaledOffset(rc, angleMin, angleMax);
    var radioSpan := rc.radioMax - rc.radioMin;
    if !InInt32(product) then Undefined(SignedOverflow)
    else if radioSpan == 0 then Undefined(DivisionByZero)
    else
      var quotient := TruncDiv(product, radioSpan);
      var sum := quotient + Base(rc, angleMin, angleMax);
      if !InInt32(quotient) || !InInt32(sum) then Undefined(SignedOverflow)
      else Defined(sum)
  }

  /** A channel that differs from `rc` only in its current pulse width. */
  function WithInput(rc: RcChannel, radioIn: int16): (r: RcChannel)
    ensures r.radioIn == radioIn
    ensures r.radioMin == rc.radioMin && r.radioMax == rc.radioMax && r.reversed == rc.reversed
  {
    rc.(radioIn := radioIn)
  }

  /** An increasing pulse range and an ordered angle range. */
  predicate Ordered(rc: RcChannel, angleMin: int16, angleMax: int16) {
    rc.radioMin < rc.radioMax && angleMin <= angleMax
  }

  /** `x` lies between `a` and `b`, in whichever order the two are given. */
  predicate Between(x: int, a: int, b: int) {
    a <= x <= b || b <= x <= a
  }

  lemma ProductBounded(o: nat, d: nat, s: nat)
    requires o <= d
    ensures o * s <= d * s
  {
    MulMonotone(s, o, d);
  }

  /**
   The stick at either end of its range commands the corresponding end of the
   angle range: `angle_min` at `radio_min` and `angle_max` at `radio_max`, the
   other way round when the channel is reversed. At `radio_min` the product is
   zero, so that end is always defined; at `radio_max` the product is the full
   span product, which must fit in `int32_t`.
   */
  lemma Endpoints(rc: RcChannel, angleMin: int16, angleMax: int16)
    requires rc.radioMax != rc.radioMin
    ensures Angle(WithInput(rc, rc.radioMin), angleMin, angleMax)
            == Defined(if rc.reversed then angleMax else angleMin)
    ensures Abs(Mul(rc.radioMax - rc.radioMin, angleMax - angleMin)) <= INT32_MAX ==>
              Angle(WithInput(rc, rc.radioMax), angleMin, angleMax)
              == Defined(if rc.reversed then angleMin else angleMax)
  {
    var d := rc.radioMax - rc.radioMin;
    var s := angleMax - angleMin;
    MulIsProduct(d, s);
    var lo := WithInput(rc, rc.radioMin);
    MulIsProduct(0, s);
    assert Offset(lo, angleMin, angleMax) == 0;
    TruncDivExact(0, d);
    var hi := WithInput(rc, rc.radioMax);
    assert Offset(hi, angleMin, angleMax) == d * s;
    TruncDivExact(s, d);
    TruncDivNegate(d * s, d);
  }

  /** `o * s / d` stays within `[0, s]` when `o` is within `[0, d]`. */
  lemma QuotientInSpan(o: nat, d: int, s: nat)
    requires 0 < d && o <= d
    ensures 0 <= TruncDiv(o * s, d) <= s
  {
    ProductBounded(o, d, s);
    TruncDivIsFloor(o * s, d);
    DivMonotone(o * s, d * s, d);
    MulDivCancel(d, s);
  }

  /** A defined angle is the base end of the range moved inward by the unsigned quotient. */
  lemma AngleValue(rc: RcChannel, angleMin: int16, angleMax: int16)
    requires rc.radioMax != rc.radioMin
    requires Angle(rc, angleMin, angleMax).Defined?
    ensures var q := TruncDiv(Offset(rc, angleMin, angleMax), rc.radioMax - rc.radioMin);
            Angle(rc, angleMin, angleMax).value == if rc.reversed then angleMax - q else angleMin + q
  {
    TruncDivNegate(Offset(rc, angleMin, angleMax), rc.radioMax - rc.radioMin);
  }

  /**
   `o * s / d`, truncated, lies between 0 and `s` when `o` lies between 0 and
   `d`: the pulse distance and the pulse span share a sign, so the quotient
   takes the sign of the angle span.
   */
  lemma QuotientBetween(o: int, d: int, s: int)
    requires d != 0 && Between(o, 0, d)
    ensures Between(TruncDiv(Mul(o, s), d), 0, s)
  {
    MulIsProduct(o, s);
    var oa, da, sa := Abs(o), Abs(d), Abs(s);
    QuotientInSpan(oa, da, sa);
    assert Abs(o * s) == oa * sa by {
      if o < 0 {
        if s < 0 { assert o * s == (-o) * (-s); } else { assert o * s == -((-o) * s); }
      } else if s < 0 {
        assert o * s == -(o * (-s));
      }
    }
    TruncDivIsFloor(oa * sa, da);
    QuotIsDiv(oa * sa, da);
    assert o * s < 0 <==> (o != 0 && s != 0 && (o < 0) != (s < 0)) by {
      if o < 0 && s > 0 { MulMonotone(s, o, -1); }
      if o > 0 && s < 0 { MulMonotone(o, s, -1); }
      if o < 0 && s < 0 { assert o * s == (-o) * (-s); }
    }
  }

  /**
   For a pulse between the two ends of its range, in either order, the angle is
   defined exactly when this pulse's product fits in `int32_t`, and a defined
   angle lies between `angle_min` and `angle_max`.
   */
  lemma WithinRange(rc: RcChannel, angleMin: int16, angleMax: int16)
    requires rc.radioMin != rc.radioMax
    requires Between(rc.radioIn, rc.radioMin, rc.radioMax)
    ensures Angle(rc, angleMin, angleMax).Defined? <==> InInt32(ScaledOffset(rc, angleMin, angleMax))
    ensures Angle(rc, angleMin, angleMax).Defined? ==> Between(Angle(rc, angleMin, angleMax).value, angleMin, angleMax)
  {
    var d := rc.radioMax - rc.radioMin;
    var u := Offset(rc, angleMin, angleMax);
    QuotientBetween(rc.radioIn - rc.radioMin, d, angleMax - angleMin);
    var q := TruncDiv(u, d);
    assert Between(q, 0, angleMax - angleMin);
    if rc.reversed {
      TruncDivNegate(u, d);
      assert ScaledOffset(rc, angleMin, angleMax) == -u;
      assert TruncDiv(-u, d) == -q;
    } else {
      assert ScaledOffset(rc, angleMin, angleMax) == u;
    }
  }

  /** `o * s / d` is non-decreasing in `o`. */
  lemma QuotientMonotone(oa: nat, ob: nat, d: int, s: nat)
    requires 0 < d && oa <= ob
    ensures TruncDiv(Mul(oa, s), d) <= TruncDiv(Mul(ob, s), d)
  {
    MulIsProduct(oa, s);
    MulIsProduct(ob, s);
    ProductBounded(oa, ob, s);
    DivMonotone(oa * s, ob * s, d);
    TruncDivIsFloor(oa * s, d);
    TruncDivIsFloor(ob * s, d);
  }

  /** A pulse nearer `radio_min` has a product no larger in magnitude, so it fits whenever the wider one does. */
  lemma NarrowerPulseFits(rc: RcChannel, angleMin: int16, angleMax: int16, lower: int16, upper: int16)
    requires Ordered(rc, angleMin, angleMax)
    requires rc.radioMin <= lower <= upper <= rc.radioMax
    requires InInt32(ScaledOffset(WithInput(rc, upper), angleMin, angleMax))
    ensures InInt32(ScaledOffset(WithInput(rc, lower), angleMin, angleMax))
  {
    MulIsProduct(lower - rc.radioMin, angleMax - angleMin);
    MulIsProduct(upper - rc.radioMin, angleMax - angleMin);
    ProductBounded(lower - rc.radioMin, upper - rc.radioMin, angleMax - angleMin);
  }

  /**
   Between two pulses in range, the commanded angle is non-decreasing in the
   pulse width, and non-increasing when the channel is reversed. It suffices
   that the wider pulse's product fits in `int32_t`: the narrower one's is
   no larger in magnitude.
   */
  lemma Monotone(rc: RcChannel, angleMin: int16, angleMax: int16, lower: int16, upper: int16)
    requires Ordered(rc, angleMin, angleMax)
    requires rc.radioMin <= lower <= upper <= rc.radioMax
    requires InInt32(ScaledOffset(WithInput(rc, upper), angleMin, angleMax))
    ensures Angle(WithInput(rc, lower), angleMin, angleMax).Defined?
    ensures Angle(WithInput(rc, upper), angleMin, angleMax).Defined?
    ensures !rc.reversed ==> Angle(WithInput(rc, lower), angleMin, angleMax).value
                             <= Angle(WithInput(rc, upper), angleMin, angleMax).value
    ensures rc.reversed ==> Angle(WithInput(rc, lower), angleMin, angleMax).value
                            >= Angle(WithInput(rc, upper), angleMin, angleMax).value
  {
    var a, b := WithInput(rc, lower), WithInput(rc, upper);
    NarrowerPulseFits(rc, angleMin, angleMax, lower, upper);
    WithinRange(a, angleMin, angleMax);
    WithinRange(b, angleMin, angleMax);
    AngleValue(a, angleMin, angleMax);
    AngleValue(b, angleMin, angleMax);
    QuotientMonotone(lower - rc.radioMin, upper - rc.radioMin, rc.radioMax - rc.radioMin, angleMax - angleMin);
  }

  /**
   Reversing a channel mirrors its angle inside the range: the two results sum
   to `angle_min + angle_max` whenever both are defined.
   */
  lemma ReverseMirrors(rc: RcChannel, angleMin: int16, angleMax: int16)
    requires rc.radioMax != rc.radioMin
    requires Angle(rc.(reversed := false), angleMin, angleMax).Defined?
    requires Angle(rc.(reversed := true), angleMin, angleMax).Defined?
    ensures Angle(rc.(reversed := false), angleMin, angleMax).value
            + Angle(rc.(reversed := true), angleMin, angleMax).value == angleMin + angleMax
  {
    TruncDivNegate(Offset(rc, angleMin, angleMax), rc.radioMax - rc.radioMin);
  }
}

=== FILE: bounded_ints.dfy ===
/**
 Fixed-width C++ integer types used by the gimbal controller, written out over
 Dafny's unbounded `int`: `uint8_t` sequence ids, the `uint16_t` error counter,
 `int16_t` RC and angle values, `int32_t` results, and C++'s division, which
 truncates toward zero where Dafny's `/` is Euclidean.
 */
module BoundedInts {

  const UINT8_MODULUS: int := 0x100
  const UINT16_MODULUS: int := 0x1_0000
  const INT32_MIN: int := -0x8000_0000
  const INT32_MAX: int := 0x7FFF_FFFF

  type uint8 = x: int | 0 <= x < 0x100
  type uint16 = x: int | 0 <= x < 0x1_0000
  type int16 = x: int | -0x8000 <= x < 0x8000
  type int32 = x: int | -0x8000_0000 <= x < 0x8000_0000

  /** True iff `x` is representable as an `int32_t` (an `int` on the target). */
  predicate InInt32(x: int) {
    INT32_MIN <= x <= INT32_MAX
  }

  function Abs(x: int): (r: nat)
    ensures r == x || r == -x
  {
    if x < 0 then -x else x
  }

  /** `x + 1` stored back into a `uint8_t`: 255 wraps to 0. */
  function Inc8(x: uint8): (r: uint8)
    ensures x < 0xFF ==> r == x + 1
    ensures x == 0xFF ==> r == 0
  {
    (x + 1) % UINT8_MODULUS
  }

  /** `x++` on a `uint16_t`: 65535 wraps to 0. */
  function Inc16(x: uint16): (r: uint16)
    ensures x < 0xFFFF ==> r == x + 1
    ensures x == 0xFFFF ==> r == 0
    ensures r != x
  {
    (x + 1) % UINT16_MODULUS
  }

  /**
   The product `a * b`, accumulated by repeated addition. Contracts that
   multiply two variables go through Mul, so that the solver meets the
   nonlinear product only where MulIsProduct brings it in.
   */
  function Mul(a: int, b: int): int
    decreases Abs(b)
  {
    if b == 0 then 0
    else if b > 0 then Mul(a, b - 1) + a
    else Mul(a, b + 1) - a
  }

  lemma {:induction false} MulIsProduct(a: int, b: int)
    ensures Mul(a, b) == a * b
    decreases Abs(b)
  {
    if b > 0 {
      MulIsProduct(a, b - 1);
      assert a * (b - 1) + a == a * b;
    } else if b < 0 {
      MulIsProduct(a, b + 1);
      assert a * (b + 1) - a == a * b;
    }
  }

  /** Long division of naturals by repeated subtraction: how many times `d` fits in `n`. */
  function Quot(n: nat, d: nat): nat
    requires d > 0
    decreases n
  {
    if n < d then 0 else 1 + Quot(n - d, d)
  }

  /** Repeated subtraction computes the quotient of Dafny's division. */
  lemma {:induction false} QuotIsDiv(n: nat, d: nat)
    requires d > 0
    ensures Quot(n, d) == n / d
    decreases n
  {
    if n < d {
      DivUnique(n, d, 0, n);
    } else {
      QuotIsDiv(n - d, d);
      var q, r := (n - d) / d, (n - d) % d;
      assert n == d * (q + 1) + r by {
        assert n - d == d * q + r;
        assert d * (q + 1) == d * q + d;
      }
      DivUnique(n, d, q + 1, r);
    }
  }

  /**
   C++ integer division `a / b`: the magnitude is the quotient of the
   magnitudes, and the sign is negative iff exactly one operand is negative,
   so the quotient is truncated toward zero.
   */
  function TruncDiv(a: int, b: int): int
    requires b != 0
  {
    var m: int := Quot(Abs(a), Abs(b));
    if (a < 0) == (b < 0) then m else -m
  }

  /**
   The remainder `a - TruncDiv(a, b) * b` of C++ division is zero or has the
   sign of `a`, and is smaller than `b` in magnitude.
   */
  lemma TruncDivRemainder(a: int, b: int)
    requires b != 0
    ensures var q := TruncDiv(a, b);
            && (0 <= a ==> 0 <= q * b <= a < q * b + Abs(b))
            && (a <= 0 ==> q * b - Abs(b) < a <= q * b <= 0)
  {
    QuotIsDiv(Abs(a), Abs(b));
    var m := Abs(a) / Abs(b);
    var q := TruncDiv(a, b);
    var bb := Abs(b);
    var p := m * bb;
    assert Abs(a) == p + Abs(a) % bb;
    assert 0 <= p;
    assert q * b == (if a < 0 then -p else p) by {
      if b < 0 {
        assert bb == -b;
        if a < 0 {
          assert q * b == m * b == -(m * bb);
        } else {
          assert q * b == (-m) * b == m * bb;
        }
      } else {
        assert bb == b;
      }
    }
  }

  /** The characterisation in TruncDivRemainder determines the quotient. */
  lemma TruncDivUnique(a: int, b: int, q: int)
    requires b != 0
    requires 0 <= a ==> 0 <= q * b <= a < q * b + Abs(b)
    requires a <= 0 ==> q * b - Abs(b) < a <= q * b <= 0
    ensures q == TruncDiv(a, b)
  {
    var t := TruncDiv(a, b);
    TruncDivRemainder(a, b);
    if q != t {
      RemaindersClose(a, Abs(b), q * b, t * b);
      MulSubDistrib(q, t, b);
      AbsProductAtLeast(q - t, b);
      assert false;
    }
  }

  /** Two products that both leave a truncating remainder of `a` lie less than `bb` apart. */
  lemma RemaindersClose(a: int, bb: int, x: int, y: int)
    requires 0 <= a ==> 0 <= x <= a < x + bb && 0 <= y <= a < y + bb
    requires a <= 0 ==> x - bb < a <= x <= 0 && y - bb < a <= y <= 0
    ensures -bb < x - y < bb
  {
  }

  lemma MulSubDistrib(q: int, t: int, b: int)
    ensures (q - t) * b == q * b - t * b
  {
  }

  lemma AbsProductAtLeast(k: int, b: int)
    requires k != 0
    ensures Abs(k * b) >= Abs(b)
  {
    if k > 0 {
      if b >= 0 {
        assert k * b >= 1 * b;
      } else {
        assert k * b <= 1 * b;
      }
    } else {
      if b >= 0 {
        assert k * b <= -1 * b;
      } else {
        assert k * b >= -1 * b;
      }
    }
  }

  /** Truncating division is odd in its dividend: `(-a) / b == -(a / b)`. */
  lemma TruncDivNegate(a: int, b: int)
    requires b != 0
    ensures TruncDiv(-a, b) == -TruncDiv(a, b)
  {
    assert Abs(-a) == Abs(a);
  }

  /** On a non-negative dividend and positive divisor, C++ and Dafny division agree. */
  lemma TruncDivIsFloor(a: int, b: int)
    requires 0 <= a && 0 < b
    ensures TruncDiv(a, b) == a / b
  {
    QuotIsDiv(a, b);
  }

  /** Division of an exact multiple recovers the factor. */
  lemma TruncDivExact(k: int, b: int)
    requires b != 0
    ensures TruncDiv(b * k, b) == k
  {
    assert k * b == b * k;
    TruncDivUnique(b * k, b, k);
  }

  /** Euclidean quotient and remainder are determined by `a == d * q + r, 0 <= r < d`. */
  lemma DivUnique(a: int, d: int, q: int, r: int)
    requires 0 < d && 0 <= r < d && a == d * q + r
    ensures a / d == q
  {
    var q', r' := a / d, a % d;
    assert a == d * q' + r';
    if q' < q {
      MulMonotone(d, q' + 1, q);
      assert false;
    } else if q < q' {
      MulMonotone(d, q + 1, q');
      assert false;
    }
  }

  lemma MulDivCancel(d: int, s: int)
    requires 0 < d
    ensures (d * s) / d == s
  {
    DivUnique(d * s, d, s, 0);
  }

  /** Euclidean division by a positive divisor is monotone in the dividend. */
  lemma DivMonotone(a: int, c: int, b: int)
    requires 0 < b && a <= c
    ensures a / b <= c / b
  {
    var qa, qc := a / b, c / b;
    assert a == b * qa + a % b;
    assert c == b * qc + c % b;
    if qc < qa {
      MulMonotone(b, qc + 1, qa);
      assert false;
    }
  }

  lemma MulMonotone(b: nat, x: int, y: int)
    requires x <= y
    ensures b * x <= b * y
  {
    var k := y - x;
    assert b * y == b * x + b * k;
  }
}

=== FILE: gimbal_cycle.dfy ===
/**
 One control cycle of `AP_Gimbal`, run when a gimbal feedback message arrives
 (`receive_feedback`): update the tilt target from the RC input, decode the
 feedback (sequence check, payload copy, joint-offset correction), recompute
 the rate demand, and send a rate command only when the attitude estimator
 reports itself ready.

 The rate-demand composition (`update_state`: the estimator, quaternion and
 rotation-matrix arithmetic, the yaw-rate filter) is outside this model; the
 rate demand it produces in a cycle and the estimator's status are inputs.
 Vector arithmetic is idealised over `real`.
 */
module GimbalCycle {
  import opened BoundedInts
  import SequenceCheck
  import TiltSlew

  datatype Vec3 = Vec3(x: real, y: real, z: real)

  function Add(a: Vec3, b: Vec3): Vec3 {
    Vec3(a.x + b.x, a.y + b.y, a.z + b.z)
  }

  function Sub(a: Vec3, b: Vec3): (r: Vec3)
    ensures Add(r, b) == a
  {
    Vec3(a.x - b.x, a.y - b.y, a.z - b.z)
  }

  /** The decoded fields of a gimbal feedback message. */
  datatype Feedback = Feedback(id: uint8, gyro: Vec3, acc: Vec3, joint: Vec3)

  /** `_measurament`: the last feedback, with the joint angles offset-corrected. */
  datatype Measurement = Measurement(id: uint8, deltaAngles: Vec3, deltaVelocity: Vec3, jointAngles: Vec3)

  /** The fields of a gimbal control message. */
  datatype Control = Control(targetSystem: uint8, targetComponent: uint8, id: uint8, rate: Vec3)

  /** An encoded control message with the system and component ids it is sent from. */
  datatype Packet = Packet(sourceSystem: uint8, sourceComponent: uint8, control: Control)

  /** The source encodes every control message as system 1, component 1. */
  const SOURCE_SYSTEM: uint8 := 1
  const SOURCE_COMPONENT: uint8 := 1

  /** Values fixed when the controller is set up. */
  datatype Config = Config(sysId: uint8, compId: uint8, jointOffsets: Vec3, deltaTime: real, maxTiltRate: real)

  /** The controller state a cycle reads and writes. */
  datatype Gimbal = Gimbal(measurement: Measurement, errorCount: uint16, tiltTarget: real, rateDemand: Vec3)

  datatype Dispatch = Suppressed | Sent(packet: Packet)

  datatype Outcome = Outcome(next: Gimbal, dispatch: Dispatch)

  /** The sequence-check view of the controller state. */
  function TrackerOf(g: Gimbal): SequenceCheck.Tracker {
    SequenceCheck.Tracker(g.measurement.id, g.errorCount)
  }

  /** `update_targets_from_rc`, with the requested tilt (radians) as a parameter. */
  function UpdateTargets(g: Gimbal, cfg: Config, tilt: real): (r: Gimbal)
    requires cfg.deltaTime > 0.0
    ensures cfg.maxTiltRate >= 0.0 ==> TiltSlew.AbsReal(r.tiltTarget - g.tiltTarget) <= cfg.deltaTime * cfg.maxTiltRate
    ensures TiltSlew.AbsReal(tilt - g.tiltTarget) <= cfg.deltaTime * cfg.maxTiltRate ==> r.tiltTarget == tilt
    ensures r.(tiltTarget := g.tiltTarget) == g
  {
    g.(tiltTarget := TiltSlew.Step(g.tiltTarget, tilt, cfg.deltaTime, cfg.maxTiltRate))
  }

  /**
   `decode_feedback`: the received id is stored whether or not it was the
   expected one, a gap bumps the error counter, the rates are copied and the
   joint angles are corrected by the configured offsets.
   */
  function DecodeFeedback(g: Gimbal, cfg: Config, fb: Feedback): (r: Gimbal)
    ensures r.measurement.id == fb.id
    ensures r.errorCount == g.errorCount <==> SequenceCheck.Follows(g.measurement.id, fb.id)
    ensures !SequenceCheck.Follows(g.measurement.id, fb.id) ==> (r.errorCount - g.errorCount) % UINT16_MODULUS == 1
    ensures r.measurement.deltaAngles == fb.gyro && r.measurement.deltaVelocity == fb.acc
    ensures Add(r.measurement.jointAngles, cfg.jointOffsets) == fb.joint
    ensures r.tiltTarget == g.tiltTarget && r.rateDemand == g.rateDemand
  {
    var t := SequenceCheck.Check(TrackerOf(g), fb.id);
    var m := Measurement(t.lastId, fb.gyro, fb.acc, Sub(fb.joint, cfg.jointOffsets));
    g.(measurement := m, errorCount := t.errorCount)
  }

  /** `send_control`: the command echoes the stored measurement id. */
  function SendControl(g: Gimbal, cfg: Config): (r: Packet)
    ensures r.sourceSystem == SOURCE_SYSTEM && r.sourceComponent == SOURCE_COMPONENT
    ensures r.control.targetSystem == cfg.sysId && r.control.targetComponent == cfg.compId
    ensures r.control.id == g.measurement.id
    ensures r.control.rate == g.rateDemand
  {
    Packet(SOURCE_SYSTEM, SOURCE_COMPONENT, Control(cfg.sysId, cfg.compId, g.measurement.id, g.rateDemand))
  }

  /**
   `receive_feedback`: one full cycle. `demand` is the rate demand the
   composer produces this cycle and `ready` the estimator's status after it ran.
   */
  function ReceiveFeedback(g: Gimbal, cfg: Config, fb: Feedback, tilt: real, demand: Vec3, ready: bool): (r: Outcome)
    requires cfg.deltaTime > 0.0
    ensures r.dispatch.Sent? <==> ready
    ensures r.dispatch.Sent? ==>
              && r.dispatch.packet.control.id == fb.id
              && r.dispatch.packet.control.targetSystem == cfg.sysId
              && r.dispatch.packet.control.targetComponent == cfg.compId
              && r.dispatch.packet.control.rate == demand
    ensures r.next.measurement.id == fb.id
    ensures r.next.errorCount == g.errorCount <==> SequenceCheck.Follows(g.measurement.id, fb.id)
    ensures cfg.maxTiltRate >= 0.0 ==>
              TiltSlew.AbsReal(r.next.tiltTarget - g.tiltTarget) <= cfg.deltaTime * cfg.maxTiltRate
  {
    var targeted := UpdateTargets(g, cfg, tilt);
    var decoded := DecodeFeedback(targeted, cfg, fb);
    var updated := decoded.(rateDemand := demand);
    Outcome(updated, if ready then Sent(SendControl(updated, cfg)) else Suppressed)
  }

  /** What one cycle receives from outside the model. */
  datatype CycleInput = CycleInput(feedback: Feedback, tilt: real, demand: Vec3, ready: bool)

  datatype Trace = Trace(final: Gimbal, sent: seq<Packet>)

  /** Runs one cycle per input, collecting the packets sent. */
  function Run(g: Gimbal, cfg: Config, inputs: seq<CycleInput>): Trace
    requires cfg.deltaTime > 0.0
    decreases |inputs|
  {
    if |inputs| == 0 then Trace(g, [])
    else
      var i := inputs[0];
      var o := ReceiveFeedback(g, cfg, i.feedback, i.tilt, i.demand, i.ready);
      var rest := Run(o.next, cfg, inputs[1..]);
      Trace(rest.final, (if o.dispatch.Sent? then [o.dispatch.packet] else []) + rest.sent)
  }

  /** The feedback ids of a run, in arrival order. */
  function Ids(inputs: seq<CycleInput>): (ids: seq<uint8>)
    ensures |ids| == |inputs|
    ensures forall k :: 0 <= k < |inputs| ==> ids[k] == inputs[k].feedback.id
  {
    seq(|inputs|, k requires 0 <= k < |inputs| => inputs[k].feedback.id)
  }

  /** The inputs of the cycles in which the estimator was ready, in order. */
  function ReadyOnly(inputs: seq<CycleInput>): seq<CycleInput>
    decreases |inputs|
  {
    if |inputs| == 0 then []
    else (if inputs[0].ready then [inputs[0]] else []) + ReadyOnly(inputs[1..])
  }

  /**
   Over a run, the sequence check sees exactly the received ids: the final
   stored id and error counter are those of checking the id stream alone.
   */
  lemma {:induction false} RunChecksIds(g: Gimbal, cfg: Config, inputs: seq<CycleInput>)
    requires cfg.deltaTime > 0.0
    ensures TrackerOf(Run(g, cfg, inputs).final) == SequenceCheck.CheckAll(TrackerOf(g), Ids(inputs))
    decreases |inputs|
  {
    if |inputs| > 0 {
      var i := inputs[0];
      var o := ReceiveFeedback(g, cfg, i.feedback, i.tilt, i.demand, i.ready);
      assert TrackerOf(o.next) == SequenceCheck.Check(TrackerOf(g), i.feedback.id);
      assert Ids(inputs)[1..] == Ids(inputs[1..]);
      RunChecksIds(o.next, cfg, inputs[1..]);
    }
  }

  /**
   The error counter after a run has grown by the number of sequence gaps in
   the received ids, modulo 2^16, and the stored id is the last one received.
   */
  lemma RunCountsGaps(g: Gimbal, cfg: Config, inputs: seq<CycleInput>)
    requires cfg.deltaTime > 0.0
    ensures Run(g, cfg, inputs).final.errorCount
            == (g.errorCount + SequenceCheck.GapCount(g.measurement.id, Ids(inputs))) % UINT16_MODULUS
    ensures |inputs| > 0 ==> Run(g, cfg, inputs).final.measurement.id == inputs[|inputs| - 1].feedback.id
  {
    RunChecksIds(g, cfg, inputs);
    SequenceCheck.CheckAllCountsGaps(TrackerOf(g), Ids(inputs));
  }

  /**
   A run sends one packet per ready cycle, in order, each addressed to the
   configured target and echoing that cycle's feedback id and rate demand.
   */
  lemma {:induction false} RunSendsWhenReady(g: Gimbal, cfg: Config, inputs: seq<CycleInput>)
    requires cfg.deltaTime > 0.0
    ensures var sent, ready := Run(g, cfg, inputs).sent, ReadyOnly(inputs);
            && |sent| == |ready|
            && forall k :: 0 <= k < |sent| ==>
                 sent[k] == Packet(SOURCE_SYSTEM, SOURCE_COMPONENT,
                                   Control(cfg.sysId, cfg.compId, ready[k].feedback.id, ready[k].demand))
    decreases |inputs|
  {
    if |inputs| > 0 {
      var i := inputs[0];
      var o := ReceiveFeedback(g, cfg, i.feedback, i.tilt, i.demand, i.ready);
      RunSendsWhenReady(o.next, cfg, inputs[1..]);
    }
  }
}

=== FILE: sequence_check.dfy ===
/**
 The feedback sequence-id integrity check of `AP_Gimbal::decode_feedback`.

 Each gimbal feedback message carries a `uint8_t` id. The controller expects
 the previous id plus one, computed in `uint8_t` so that 255 is followed by 0.
 A mismatch is not fatal: the `uint16_t` counter `feedback_error_count` is
 incremented (wrapping at 65536) and the received id is stored regardless.
 */
module SequenceCheck {
  import opened BoundedInts

  /** The part of the controller's state the check reads and writes. */
  datatype Tracker = Tracker(lastId: uint8, errorCount: uint16)

  /** The expected id: the previous one plus one, in `uint8_t`. */
  function ExpectedId(lastId: uint8): uint8 {
    Inc8(lastId)
  }

  /**
   `received` follows `lastId` exactly when it is one more modulo 256; stated
   on the id difference so that it does not depend on how ExpectedId is computed.
   */
  predicate Follows(lastId: uint8, received: uint8) {
    (received - lastId) % UINT8_MODULUS == 1
  }

  lemma ExpectedIdIsSuccessor(lastId: uint8, received: uint8)
    ensures received == ExpectedId(lastId) <==> Follows(lastId, received)
  {
    if lastId == 0xFF {
      assert received == 0 <==> (received - 0xFF) % UINT8_MODULUS == 1;
    }
  }

  /** One id check: the decode step of one feedback message. */
  function Check(t: Tracker, received: uint8): (r: Tracker)
    ensures r.lastId == received
    ensures Follows(t.lastId, received) ==> r.errorCount == t.errorCount
    ensures !Follows(t.lastId, received) ==> (r.errorCount - t.errorCount) % UINT16_MODULUS == 1
    ensures r.errorCount == t.errorCount <==> Follows(t.lastId, received)
  {
    ExpectedIdIsSuccessor(t.lastId, received);
    var count := if ExpectedId(t.lastId) != received then Inc16(t.errorCount) else t.errorCount;
    Tracker(received, count)
  }

  /** Checks a stream of received ids in arrival order. */
  function CheckAll(t: Tracker, ids: seq<uint8>): Tracker
    decreases |ids|
  {
    if |ids| == 0 then t else CheckAll(Check(t, ids[0]), ids[1..])
  }

  /**
   Reference count of sequence gaps in `ids` when the previous id was `lastId`:
   the number of positions whose id does not follow its predecessor, counted
   from the end of the stream.
   */
  function GapCount(lastId: uint8, ids: seq<uint8>): nat
    decreases |ids|
  {
    if |ids| == 0 then 0
    else
      var n := |ids|;
      var prev := if n == 1 then lastId else ids[n - 2];
      GapCount(lastId, ids[..n - 1]) + (if Follows(prev, ids[n - 1]) then 0 else 1)
  }

  lemma {:induction false} CheckAllSnoc(t: Tracker, ids: seq<uint8>, x: uint8)
    ensures CheckAll(t, ids + [x]) == Check(CheckAll(t, ids), x)
    decreases |ids|
  {
    if |ids| == 0 {
      assert ids + [x] == [x];
      assert [x][1..] == [];
    } else {
      assert (ids + [x])[1..] == ids[1..] + [x];
      CheckAllSnoc(Check(t, ids[0]), ids[1..], x);
    }
  }

  lemma AddMod(x: int)
    ensures (x % UINT16_MODULUS + 1) % UINT16_MODULUS == (x + 1) % UINT16_MODULUS
  {
  }

  /**
   After a stream of ids, the stored id is the last one received and the error
   counter has grown by the number of gaps, modulo 2^16.
   */
  lemma {:induction false} CheckAllCountsGaps(t: Tracker, ids: seq<uint8>)
    ensures CheckAll(t, ids).errorCount == (t.errorCount + GapCount(t.lastId, ids)) % UINT16_MODULUS
    ensures |ids| > 0 ==> CheckAll(t, ids).lastId == ids[|ids| - 1]
    ensures |ids| == 0 ==> CheckAll(t, ids) == t
    decreases |ids|
  {
    if |ids| > 0 {
      var n := |ids|;
      var init := ids[..n - 1];
      assert ids == init + [ids[n - 1]];
      CheckAllCountsGaps(t, init);
      CheckAllSnoc(t, init, ids[n - 1]);
      var before := CheckAll(t, init);
      var prev := if n == 1 then t.lastId else ids[n - 2];
      assert before.lastId == prev;
      var g := GapCount(t.lastId, init);
      assert before.errorCount == (t.errorCount + g) % UINT16_MODULUS;
      if !Follows(prev, ids[n - 1]) {
        AddMod(t.errorCount + g);
      }
    }
  }

  /** Below the counter's wrap-around, the error counter never decreases. */
  lemma CountNeverResets(t: Tracker, ids: seq<uint8>)
    requires t.errorCount + GapCount(t.lastId, ids) < UINT16_MODULUS
    ensures CheckAll(t, ids).errorCount == t.errorCount + GapCount(t.lastId, ids)
    ensures CheckAll(t, ids).errorCount >= t.errorCount
  {
    CheckAllCountsGaps(t, ids);
  }

  /** Id 255 followed by id 0 is the `uint8_t` wrap, not a gap. */
  lemma WrapIsNotAGap(count: uint16)
    ensures Check(Tracker(0xFF, count), 0) == Tracker(0, count)
  {
  }

  /** Ids 1, 2, 3, 5 after id 0 raise the counter exactly once, at 3 -> 5. */
  lemma OneGapInOneTwoThreeFive()
    ensures CheckAll(Tracker(0, 0), [1, 2, 3, 5]) == Tracker(5, 1)
  {
    var ids: seq<uint8> := [1, 2, 3, 5];
    CheckAllCountsGaps(Tracker(0, 0), ids);
    assert ids[..3] == [1, 2, 3];
    assert ids[..3][..2] == [1, 2];
    assert ids[..3][..2][..1] == [1];
    assert [1][..0] == [];
    assert GapCount(0, [1]) == 0;
    assert GapCount(0, [1, 2]) == 0;
    assert GapCount(0, [1, 2, 3]) == 0;
    assert !Follows(3, 5);
  }
}

=== FILE: tilt_slew.dfy ===
/**
 The tilt-target slew-rate limiter of `AP_Gimbal::update_targets_from_rc`,
 idealised over `real`.

 Each control cycle the tilt target moves toward the tilt the RC input asks
 for. If reaching it this cycle would need a rate above `_max_tilt_rate`, the
 target moves by exactly `delta_time * _max_tilt_rate` toward it; otherwise it
 snaps to the requested tilt.
 */
module TiltSlew {

  /** Magnitude of a `real`; the limiter works over reals, unlike `BoundedInts.Abs` on integers. */
  function AbsReal(x: real): (r: real)
    ensures 0.0 <= r && (r == x || r == -x)
  {
    if x < 0.0 then -x else x
  }

  /** A rate above `maxRate` is exactly a step larger than `dt * maxRate`. */
  lemma RateExceeds(delta: real, dt: real, maxRate: real)
    requires dt > 0.0
    ensures delta / dt > maxRate <==> delta > dt * maxRate
    ensures delta / dt < -maxRate <==> delta < -(dt * maxRate)
  {
    assert delta == (delta / dt) * dt;
    if delta / dt > maxRate {
      assert (delta / dt) * dt > maxRate * dt;
    } else {
      assert (delta / dt) * dt <= maxRate * dt;
    }
    if delta / dt < -maxRate {
      assert (delta / dt) * dt < -maxRate * dt;
    } else {
      assert (delta / dt) * dt >= -maxRate * dt;
    }
  }

  /** The step a cycle may take, `delta_time * _max_tilt_rate`, has the sign of the rate limit. */
  lemma StepSign(dt: real, maxRate: real)
    requires dt > 0.0
    ensures maxRate >= 0.0 ==> dt * maxRate >= 0.0
    ensures maxRate > 0.0 ==> dt * maxRate > 0.0
  {
    if maxRate >= 0.0 {
      ScaleMonotone(0.0, maxRate, dt);
    }
    if maxRate > 0.0 {
      ScaleStrict(0.0, maxRate, dt);
    }
  }

  /**
   Reference rule, free of division: move at most `step` toward `tilt`,
   landing on it when it is within reach.
   */
  function Clamp(target: real, tilt: real, step: real): (r: real)
    requires step >= 0.0
    ensures AbsReal(r - target) <= step
    ensures AbsReal(tilt - target) <= step ==> r == tilt
    ensures AbsReal(tilt - target) > step ==> AbsReal(r - target) == step && AbsReal(tilt - r) == AbsReal(tilt - target) - step
  {
    if tilt - target > step then target + step
    else if tilt - target < -step then target - step
    else tilt
  }

  /**
   One cycle of the limiter: `target` is the current tilt target, `tilt` the
   requested tilt. The source divides by `delta_time`, so it must be positive.
   */
  function Step(target: real, tilt: real, dt: real, maxRate: real): (r: real)
    requires dt > 0.0
    // Within one step of the request, the target lands on it exactly.
    ensures AbsReal(tilt - target) <= dt * maxRate ==> r == tilt
    // With a non-negative rate limit the rule is the division-free reference rule:
    // the target never moves further than one step, and when the request is
    // further away it moves exactly one step closer without overshooting.
    ensures maxRate >= 0.0 ==> (StepSign(dt, maxRate); r == Clamp(target, tilt, dt * maxRate))
    ensures maxRate >= 0.0 ==> AbsReal(r - target) <= dt * maxRate
    ensures maxRate >= 0.0 && AbsReal(tilt - target) > dt * maxRate ==>
              && AbsReal(r - target) == dt * maxRate
              && AbsReal(tilt - r) == AbsReal(tilt - target) - dt * maxRate
  {
    StepSign(dt, maxRate);
    RateExceeds(tilt - target, dt, maxRate);
    var rate := (tilt - target) / dt;
    if rate > maxRate then target + dt * maxRate
    else if rate < -maxRate then target - dt * maxRate
    else tilt
  }

  /** `n` cycles of the limiter with the requested tilt held constant. */
  function Iterate(target: real, tilt: real, dt: real, maxRate: real, n: nat): real
    requires dt > 0.0
    decreases n
  {
    if n == 0 then target else Iterate(Step(target, tilt, dt, maxRate), tilt, dt, maxRate, n - 1)
  }

  /** `n` applications of the reference rule. */
  function Walk(target: real, tilt: real, step: real, n: nat): real
    requires step >= 0.0
    decreases n
  {
    if n == 0 then target else Walk(Clamp(target, tilt, step), tilt, step, n - 1)
  }

  /** With a non-negative rate limit, `n` cycles of the source's rule are `n` steps of the reference rule. */
  lemma {:induction false} IterateIsWalk(target: real, tilt: real, dt: real, maxRate: real, n: nat)
    requires dt > 0.0 && maxRate >= 0.0
    ensures (StepSign(dt, maxRate); Iterate(target, tilt, dt, maxRate, n) == Walk(target, tilt, dt * maxRate, n))
    decreases n
  {
    StepSign(dt, maxRate);
    if n > 0 {
      IterateIsWalk(Step(target, tilt, dt, maxRate), tilt, dt, maxRate, n - 1);
    }
  }

  /** A target that equals the request stays there. */
  lemma {:induction false} WalkFixpoint(tilt: real, step: real, n: nat)
    requires step >= 0.0
    ensures Walk(tilt, tilt, step, n) == tilt
    decreases n
  {
    if n > 0 {
      WalkFixpoint(tilt, step, n - 1);
    }
  }

  /** The distance `n` full steps cover, accumulated one step at a time. */
  function Covered(n: nat, step: real): real
    decreases n
  {
    if n == 0 then 0.0 else Covered(n - 1, step) + step
  }

  lemma {:induction false} CoveredIsProduct(n: nat, step: real)
    ensures Covered(n, step) == (n as real) * step
    decreases n
  {
    if n > 0 {
      CoveredIsProduct(n - 1, step);
      assert (n as real) * step == ((n - 1) as real) * step + step;
    }
  }

  lemma {:induction false} CoveredMonotone(n: nat, step: real)
    requires step >= 0.0
    ensures Covered(n, step) >= 0.0
    ensures n > 0 ==> Covered(n, step) >= step
    decreases n
  {
    if n > 0 {
      CoveredMonotone(n - 1, step);
    }
  }

  /** The reference rule reaches a held request exactly when the steps taken cover the distance. */
  lemma {:induction false} WalkReachedIff(target: real, tilt: real, step: real, n: nat)
    requires step > 0.0
    ensures Walk(target, tilt, step, n) == tilt <==> Covered(n, step) >= AbsReal(tilt - target)
    decreases n
  {
    if n > 0 {
      CoveredMonotone(n, step);
      var next := Clamp(target, tilt, step);
      if AbsReal(tilt - target) <= step {
        WalkFixpoint(tilt, step, n - 1);
      } else {
        WalkReachedIff(next, tilt, step, n - 1);
      }
    }
  }

  /** While the request stays further than the steps so far cover, the target ramps linearly. */
  lemma {:induction false} WalkRamp(target: real, tilt: real, step: real, n: nat)
    requires step >= 0.0
    requires tilt - target >= Covered(n, step)
    ensures Walk(target, tilt, step, n) == target + Covered(n, step)
    decreases n
  {
    if n > 0 {
      CoveredMonotone(n - 1, step);
      WalkRamp(Clamp(target, tilt, step), tilt, step, n - 1);
    }
  }

  /** The same ramp downward, toward a request below the target. */
  lemma {:induction false} WalkRampDown(target: real, tilt: real, step: real, n: nat)
    requires step >= 0.0
    requires target - tilt >= Covered(n, step)
    ensures Walk(target, tilt, step, n) == target - Covered(n, step)
    decreases n
  {
    if n > 0 {
      CoveredMonotone(n - 1, step);
      WalkRampDown(Clamp(target, tilt, step), tilt, step, n - 1);
    }
  }

  /** Once the target equals the request it stays there. */
  lemma FixpointIsStable(tilt: real, dt: real, maxRate: real, n: nat)
    requires dt > 0.0 && maxRate >= 0.0
    ensures Iterate(tilt, tilt, dt, maxRate, n) == tilt
  {
    StepSign(dt, maxRate);
    IterateIsWalk(tilt, tilt, dt, maxRate, n);
    WalkFixpoint(tilt, dt * maxRate, n);
  }

  /**
   With a positive rate limit and the request held, the target has reached the
   request after `n` cycles exactly when `n` steps cover the initial distance.
   */
  lemma ReachedIff(target: real, tilt: real, dt: real, maxRate: real, n: nat)
    requires dt > 0.0 && maxRate > 0.0
    ensures Iterate(target, tilt, dt, maxRate, n) == tilt <==> Covered(n, dt * maxRate) >= AbsReal(tilt - target)
  {
    StepSign(dt, maxRate);
    IterateIsWalk(target, tilt, dt, maxRate, n);
    WalkReachedIff(target, tilt, dt * maxRate, n);
  }

  /**
   A held request is reached after ⌈|tilt - target| / (delta_time * _max_tilt_rate)⌉
   cycles of the limiter, and not before.
   */
  lemma ConvergesInCycles(target: real, tilt: real, dt: real, maxRate: real, n: nat)
    requires dt > 0.0 && maxRate > 0.0
    ensures (StepSign(dt, maxRate);
             Iterate(target, tilt, dt, maxRate, n) == tilt <==> n >= Ceil(AbsReal(tilt - target) / (dt * maxRate)))
  {
    StepSign(dt, maxRate);
    IterateIsWalk(target, tilt, dt, maxRate, n);
    Converges(target, tilt, dt * maxRate, n);
  }

  /** ⌈x⌉ for a non-negative real. */
  function Ceil(x: real): (c: nat)
    requires x >= 0.0
    ensures x <= c as real < x + 1.0
  {
    var f := x.Floor;
    if f as real == x then f else f + 1
  }

  /** A held request is reached after ⌈|tilt - target| / step⌉ steps of the reference rule, and not before. */
  lemma Converges(target: real, tilt: real, step: real, n: nat)
    requires step > 0.0
    ensures Walk(target, tilt, step, n) == tilt <==> n >= Ceil(AbsReal(tilt - target) / step)
  {
    WalkReachedIff(target, tilt, step, n);
    CoveredIsProduct(n, step);
    CoverIffCycles(AbsReal(tilt - target), step, n);
  }

  /** `n` steps of size `step` cover `dist` exactly when `n` is at least ⌈dist / step⌉. */
  lemma CoverIffCycles(dist: real, step: real, n: nat)
    requires dist >= 0.0 && step > 0.0
    ensures (n as real) * step >= dist <==> n >= Ceil(dist / step)
  {
    CeilIff(dist / step, n);
    DivCompare(n as real, dist, step);
  }

  lemma CeilIff(x: real, n: nat)
    requires x >= 0.0
    ensures n >= Ceil(x) <==> (n as real) >= x
  {
    var k := Ceil(x);
    if n < k {
      assert (n as real) <= (k as real) - 1.0;
    }
  }

  lemma DivCompare(a: real, dist: real, step: real)
    requires step > 0.0
    ensures a * step >= dist <==> a >= dist / step
  {
    DivCancel(dist, step);
    if a >= dist / step {
      ScaleMonotone(dist / step, a, step);
    } else {
      ScaleStrict(a, dist / step, step);
    }
  }

  lemma DivCancel(a: real, b: real)
    requires b > 0.0
    ensures (a / b) * b == a
  {
  }

  lemma ScaleMonotone(a: real, b: real, c: real)
    requires a <= b && c >= 0.0
    ensures a * c <= b * c
  {
  }

  lemma ScaleStrict(a: real, b: real, c: real)
    requires a < b && c > 0.0
    ensures a * c < b * c
  {
  }

  /**
   Starting at 0 with a request of 1 rad, `_max_tilt_rate` 0.2 rad/s and a
   0.1 s cycle, the target ramps by 0.02 rad per cycle ...
   */
  lemma RampExample(n: nat)
    requires n <= 50
    ensures Iterate(0.0, 1.0, 0.1, 0.2, n) == (n as real) * 0.02
  {
    CoveredIsProduct(n, 0.02);
    assert Covered(n, 0.02) <= 1.0;
    WalkRamp(0.0, 1.0, 0.02, n);
    IterateIsWalk(0.0, 1.0, 0.1, 0.2, n);
  }

  /** ... and first equals the request after 50 cycles. */
  lemma ReachExample(n: nat)
    ensures Iterate(0.0, 1.0, 0.1, 0.2, n) == 1.0 <==> n >= 50
  {
    CoveredIsProduct(n, 0.02);
    ReachedIff(0.0, 1.0, 0.1, 0.2, n);
  }
}
